=== FILE: README.md ===
# Network-traffic anomaly dashboard, modelled in Dafny

`Proyecto.py` is a small Streamlit prototype. It keeps a series of traffic
readings (bytes per second) in the session, lets the user edit that series
as comma-separated text, and runs an isolation forest over it. It then
lists every reading the forest marks as anomalous, each with a rule-based
remediation suggestion.

This project models the logic of that script and proves properties of it.

| file | module | what it models |
|---|---|---|
| `outcomes.dfy` | `Outcomes` | `Option`: a value, or the `ValueError` the script catches |
| `pytext.dfy` | `PyText` | `str.split(',')`, `str.strip()` (with CPython's whitespace set) and `sep.join` |
| `intliterals.dfy` | `IntLiterals` | `str(n)` for integers, and `int(t)` for signed decimal text |
| `seriesinput.dfy` | `SeriesInput` | the text box: `", ".join(map(str, datos))` out, the list comprehension in, and the update rule |
| `suggestions.dfy` | `Suggestions` | `sugerir_solucion`: the ordered threshold rules and their five messages |
| `detector.dfy` | `Detector` | `detectar_anomalias`: the two-point guard, the forest's labels, `np.where(predicciones == -1)[0]` |
| `dashboard.dfy` | `Dashboard` | the session state, one script run (edit, then analyse on click), and the results section with its report loop |

The isolation forest is a function parameter `forest: seq<real> -> Fit`. It
returns a label (`Inlier` for `1`, `Outlier` for `-1`) per point, or
`FitFailed` for the exception that the `except Exception` branch swallows.
The only thing assumed about it is what `predict` on the training matrix
guarantees: one label per point (`Detector.LabelsEach`,
`Detector.LabelsEveryPoint`). Everything done with the labels is modelled
and proved.

The script's readings come from the text box, so they are read as Python
integers; the model stores them as such (for the element type NumPy then
picks, see "Left out"). After `np.array(..., dtype=float)` the report receives `float64` values, which
`isinstance(v, float)` accepts. The model therefore represents the numbers
handed to `sugerir_solucion` as reals, and proves that the report never
shows the "not numeric" message.

The guard is `len(datos) < 2`, and each piece of the text box goes through
`int(x.strip())`. The model's `int` reads an optional `+` or `-` followed by
ASCII decimal digits, leading zeros allowed. That is the form the box's own
text takes and the form a user normally types; the cases where Python's
`int` goes further or stops earlier are listed under "Left out".

## Model

| member | source | states |
|---|---|---|
| PyText.Split | Proyecto.py:114 | `split(',')` always gives at least one piece, no piece contains a comma, and joining the pieces back with commas gives the original text |
| PyText.Strip | Proyecto.py:114 | the stripped text is no longer than the input and neither starts nor ends with whitespace |
| PyText.StripIsSlice | Proyecto.py:114 | `strip` only removes characters: its result is a contiguous slice of the input with nothing but whitespace before and after it |
| PyText.StripEmptyIffAllSpace | Proyecto.py:114 | `x.strip()` is empty, so the `if x.strip()` filter skips the piece, exactly when the piece is all whitespace |
| PyText.StripDropsLeadingSpace | Proyecto.py:114 | whitespace in front of a text never changes what `strip` returns, as for the space after each comma |
| PyText.StripEndDropsSpace | Proyecto.py:114 | whitespace at the end of a text never changes what `rstrip` returns |
| PyText.StripDropsSurroundingSpace | Proyecto.py:114 | a text with no whitespace at either end comes out of `strip` unchanged however much whitespace surrounds it |
| PyText.SplitAfterPiece | Proyecto.py:114 | a comma-free run followed by a comma splits off as the first piece, followed by the pieces of the rest |
| IntLiterals.ParseInt | Proyecto.py:114 | `int(t)` succeeds exactly on an optional sign followed by one or more digits (or on digits alone), and the result is negative only when the text starts with `-` |
| IntLiterals.FormatInt | Proyecto.py:108 | `str(n)` is canonical text (no leading zeros, `-` only for negatives) that `int` reads back as `n` |
| IntLiterals.FormatParseCanonical | Proyecto.py:108-114 | on canonical text `str` undoes `int`: a canonical literal that parses to `n` is `str(n)` itself |
| IntLiterals.ParseIntLeadingZero | Proyecto.py:114 | a leading zero in front of digits does not change the number `int` reads |
| IntLiterals.ParseIntPlus | Proyecto.py:114 | a `+` in front of digits does not change the number `int` reads |
| IntLiterals.ParseIntMinus | Proyecto.py:114 | a `-` in front of digits negates the number `int` reads |
| IntLiterals.ParseIntExamples | Proyecto.py:114 | `int` reads `"007"` as 7, `"+5"` as 5, `"-0"` as 0 and `"-12"` as -12 |
| IntLiterals.ParseIntRejections | Proyecto.py:114 | `int` rejects the empty text, a sign alone, `"1.5"`, `"1 2"` and `"x"` |
| SeriesInput.FormatSeries | Proyecto.py:108 | the shown text is empty for an empty series; otherwise splitting it at the commas gives `str` of the first number and then `str` of each later number behind one space, one piece per number |
| SeriesInput.ParsePieces | Proyecto.py:114 | the comprehension raises exactly when some piece is malformed, and otherwise yields one integer per non-blank piece |
| SeriesInput.ParseSeries | Proyecto.py:114 | reading the box fails exactly when some piece between commas is malformed; otherwise it yields one integer per non-blank piece, and no integer at all exactly when every piece is blank |
| SeriesInput.ParseOnePiece | Proyecto.py:114 | the comprehension over one piece yields nothing for a blank piece, and otherwise `int` of the stripped piece or the error |
| SeriesInput.ParsePiecesConsValue | Proyecto.py:114 | a piece in front contributes its own value before the numbers of the rest, and its error stops the whole comprehension |
| SeriesInput.ParsePiecesAppend | Proyecto.py:114 | the comprehension over two runs of pieces is the numbers of the first followed by those of the second, or the error if either fails |
| SeriesInput.PaddedNumberPiece | Proyecto.py:114 | a number surrounded by whitespace contributes that number |
| SeriesInput.MalformedPaddedPiece | Proyecto.py:114 | text `int` rejects, surrounded by whitespace, makes the piece fail |
| SeriesInput.FormattedPieceValue | Proyecto.py:108-114 | `str(n)`, with or without the space after a comma, is a piece worth `n` |
| SeriesInput.EmptyPieceSkipped | Proyecto.py:114 | typing `"1,,2"` reads as `[1, 2]`: the empty piece is skipped |
| SeriesInput.PaddedPiecesAccepted | Proyecto.py:114 | typing `" 007 , +5"` reads as `[7, 5]`: surrounding spaces, leading zeros and a plus sign are accepted |
| SeriesInput.NonNumberRejected | Proyecto.py:114 | typing `"1,x"` fails as a whole |
| SeriesInput.AnyMalformedIffSomePiece | Proyecto.py:114 | the scan raises `ValueError` exactly when some piece is non-blank and not an integer |
| SeriesInput.NoneSurviveIffAllBlank | Proyecto.py:114-115 | the parsed list is empty, so no update happens, exactly when every piece is blank |
| SeriesInput.UpdateSeries | Proyecto.py:115-118 | a failed parse shows the error and keeps the series; an empty list keeps it silently; a non-empty list replaces it; the series changes only to a non-empty parsed list, so a non-empty series never becomes empty |
| SeriesInput.ApplyEdit | Proyecto.py:112-118 | the error is shown exactly when some piece of the box is malformed, and the series is then kept; a box of blank pieces keeps it silently; otherwise the series becomes the box's numbers, never empty, and a non-empty series stays non-empty |
| SeriesInput.ParseFormatSeries | Proyecto.py:108-114 | round trip: the text shown for any series parses back to the same integers in the same order |
| SeriesInput.UnchangedTextKeepsSeries | Proyecto.py:108-118 | leaving the box as shown keeps the stored series and shows no error |
| SeriesInput.FormattedTextReplacesSeries | Proyecto.py:108-118 | typing the shown text of any non-empty series stores exactly that series |
| Suggestions.Classify | Proyecto.py:40-55 | non-numbers, and only they, get the non-numeric rule; every number lands in the band of disjoint intervals that holds it |
| Suggestions.Suggest | Proyecto.py:40-55 | the "Valor anómalo no numérico." text is returned exactly for non-numbers; every number gets the message of a band that contains it |
| Suggestions.MessagesDistinct | Proyecto.py:42-54 | the five messages are pairwise different, so the returned text identifies the rule that fired |
| Suggestions.BandsPartition | Proyecto.py:46-54 | every number lies in exactly one band, so the ordered rules never overlap or leave a gap |
| Suggestions.ClassifyIffInBand | Proyecto.py:46-54 | the ordered `if/elif` chain and the interval table agree in both directions |
| Suggestions.ThresholdBoundaries | Proyecto.py:46-50 | the comparisons are strict: 500000 is high but not a spike, 1000 is not a drop, and 100000 falls to the default rule |
| Detector.AsReals | Proyecto.py:21 | the float array has one element per reading, each the reading's value |
| Detector.OutlierIndices | Proyecto.py:33 | the computed index list holds exactly the positions labelled `-1`, each once, in increasing order |
| Detector.ListsOutliersExtend | Proyecto.py:33 | one more label extends the outlier positions by its own position exactly when it is `-1` |
| Detector.OutlierIndicesUnique | Proyecto.py:33 | any increasing list of exactly the outlier positions equals the computed one, so `np.where` has one possible answer |
| Detector.Detect | Proyecto.py:14-37 | predictions are empty exactly when the series is below the two-point guard or the forest fails; otherwise they are the forest's labels; anomalies are the outlier positions in order, and each indexes the returned data |
| Detector.GuardIgnoresForest | Proyecto.py:17-18 | below two points the result does not depend on the forest at all |
| Detector.AnomalyIffOutlier | Proyecto.py:17-34 | a position is reported exactly when the series passed the guard, the forest fitted, and it labelled that point `-1` |
| Dashboard.Rerun | Proyecto.py:108-137 | the edit is applied first; the error is shown exactly when parsing fails; without a click the stored analysis is kept; on a click with data the updated series is analysed; the session stays showable, and a non-empty series stays non-empty, so the "no data" branch cannot fire |
| Dashboard.BuildReport | Proyecto.py:151-162 | one card per anomalous index, in order, holding the value at that index and its suggestion; no card carries the non-numeric message, and each message is that of the band the value lies in |
| Dashboard.Render | Proyecto.py:142-168 | the prompt shows exactly before any analysis, the "no anomalies" note exactly for an analysis with no anomalous index, and otherwise one card per index |
| Dashboard.IdleRerunKeepsSession | Proyecto.py:108-137 | a run with the box left as shown and no click changes nothing and shows no error |
| Dashboard.AnalyseStoredSeries | Proyecto.py:108-135 | clicking with the box left as shown analyses exactly the stored series |
| Dashboard.RunsStayReportable | Proyecto.py:96-137 | from the initial session, after any sequence of runs, the series is non-empty and every stored anomaly index points into its data |
| Dashboard.InitialSeriesBands | Proyecto.py:98-102 | in the initial series, 950000 (index 13) is a spike, 500 (index 18) a drop, 150000 and 160000 (indices 8 and 9) sustained-high, and every other value falls to the default rule |

## Left out

- The isolation forest itself (`fit` and `predict`, lines 28-31). The
  forest is a parameter, and the only thing assumed about it is one label
  per point.
- The `except ValueError` branch of lines 20-24: the box only ever stores
  numbers read by `int`, and converting those to `float` never raises
  `ValueError`. The other failure of that conversion is an `OverflowError`,
  which that branch does not catch; see Detector.AsReals below.
- SeriesInput.UpdateSeries: line 116 stores `np.array(nuevos_datos_lista)`,
  whose element type NumPy chooses from the values. While every reading fits
  a signed 64-bit integer the array holds the readings exactly, which is what
  the model stores. A reading at or beyond 2^63 makes NumPy choose an
  unsigned 64-bit, a `float64` or an object array, depending on the other
  readings and on the NumPy version. With `float64`, as for
  `10000000000000000001, 5` under NumPy's promotion of unsigned with signed
  64-bit integers, the stored values are rounded (`1e19`, `5.0`). The box
  then shows `1e+19, 5.0`, which `int` rejects, so the script shows the
  error of line 118 on every later run until the text is retyped. The model
  stores the exact integers and shows no error.
- SeriesInput.ApplyEdit: "the series becomes the box's numbers" holds
  exactly only while NumPy keeps the readings as integers; the rounded
  `float64` case under SeriesInput.UpdateSeries is not modelled.
- SeriesInput.FormattedTextReplacesSeries: typing the text of a series
  stores exactly that series only while NumPy keeps its readings as
  integers; for a series such as `[10000000000000000001, 5]` the script
  stores rounded `float64` values, as under SeriesInput.UpdateSeries.
- `datos is None` in the guard: the session never stores `None`.
- Detector.Detect: below the guard the script returns the integer array
  itself. The model returns the same values as reals. The report never reads
  them, because the anomaly list is then empty.
- Detector.AsReals: the conversion to `float64` is modelled as exact and
  never failing. Integers beyond 2^53 would be rounded, and that rounding is
  not modelled. An integer of 309 or more digits, which `int` still accepts
  below its 4300-digit limit, is beyond the largest `float64`. For such an
  integer `np.array(datos, dtype=float)` raises `OverflowError`. The
  `except ValueError` of line 22 does not catch that, so with two or more
  readings the run of the script ends at the click of line 128 with
  nothing stored. The model instead analyses the exact values, and
  Dashboard.Rerun reports `Analysed`. With a single reading the guard of
  lines 17-18 returns before the conversion, so the click completes and
  stores an analysis with no anomalies, as the model says; what the chart
  drawing of lines 145-147 then does with such a value is outside this
  model.
- Dashboard.Rerun: a click on a series of two or more readings, one of
  them an integer too large for `float64`, is modelled as a completed
  analysis. The script instead ends that run with the uncaught
  `OverflowError` described under Detector.AsReals. A series of one such
  reading is analysed as the model says, because the guard returns first.
- IntLiterals.ParseInt: accepts only ASCII digits with an optional sign.
  Python's `int` also accepts `_` between digits and non-ASCII decimal
  digits; text like that is reported as an error here. In the other
  direction, CPython 3.11 and later refuse decimal text of more than 4300
  digits with a `ValueError`, so the script would show the error and keep
  the series, while the model accepts such text; no length limit is
  modelled.
- Suggestions.Classify: NaN and infinities are not modelled, because they
  cannot come from integer input.
- `crear_grafico` (lines 57-87) and every Streamlit call (page layout,
  spinner, `st.pyplot`, the wording of `st.error`, `st.warning`,
  `st.success` and `st.info`): this is presentation only.
- The thousands separators in `{valor:,}` at line 160: the card holds the
  value, not its formatted text.
- The timestamp at line 93: it reads the clock and affects nothing else.
- The stored `predicciones` (line 132) are kept in the model's `Detection`
  but never read, as in the script.

=== FILE: dashboard.dfy ===
/** The Streamlit page of Proyecto.py, seen as one script run at a time.
    The session keeps the stored series (`datos`) and the last analysis
    (`resultados`). Each run reads the text box back into the series, runs
    the analysis if the button was clicked and there is data, and then
    shows either a prompt to analyse, a "no anomalies" note, or one card per
    anomaly with its value and suggestion. */
module Dashboard {
  import opened Outcomes
  import opened Suggestions
  import opened SeriesInput
  import opened Detector

  /** The simulated series the session starts with. */
  const InitialSeries: seq<int> := [
    25000, 30000, 28000, 35000, 40000, 38000, 42000, 39000, 150000,
    160000, 45000, 40000, 38000, 950000, 41000, 37000, 39000, 43000,
    500, 35000, 38000, 40000, 41000
  ]

  /** `st.session_state`: the stored series and the last analysis, if any. */
  datatype Session = Session(datos: seq<int>, resultados: Option<Detection>)

  /** The session before the first interaction. */
  const InitialSession: Session := Session(InitialSeries, None)

  /** What the analyse button led to in this run. */
  datatype Notice =
    | NoClick           // the button was not pressed
    | Analysed          // "¡Análisis completado!"
    | NothingToAnalyse  // "No hay datos para analizar."

  /** One card of the results section: the anomaly's position, its value
      and the suggestion shown under it. */
  datatype Entry = Entry(index: nat, value: real, suggestion: string)

  /** What the results section shows. */
  datatype Panel =
    | AwaitingAnalysis          // no analysis stored yet
    | NoAnomalies               // an analysis with no anomalous index
    | Anomalies(entries: seq<Entry>)

  /** Every anomalous index of a detection points into its data, so the
      report can read `datos[idx]`. */
  predicate IndexesData(d: Detection) {
    forall k :: 0 <= k < |d.anomalies| ==> d.anomalies[k] < |d.data|
  }

  /** The session can be shown: a stored analysis indexes its own data. */
  predicate Reportable(s: Session) {
    s.resultados.Some? ==> IndexesData(s.resultados.value)
  }

  /** The state after the editing and analysis parts of a run, with the
      edit error and the button's notice shown along the way. */
  datatype Step = Step(next: Session, editError: bool, notice: Notice)

  /** Proyecto.py lines 108-137, one run: `text` is what the box holds,
      `clicked` whether the analyse button was pressed, `forest` the
      isolation forest. The series is updated from the box first; a click
      with data always runs the analysis, and it is of the updated series.
      Without a click the stored analysis is kept even if the series
      changed. */
  function Rerun(s: Session, text: string, clicked: bool, forest: seq<real> -> Fit): (r: Step)
    requires LabelsEveryPoint(forest)
    ensures r.editError <==> ParseSeries(text).None?
    ensures r.next.datos == ApplyEdit(s.datos, text).datos
    ensures !clicked ==> r.notice == NoClick && r.next.resultados == s.resultados
    ensures clicked ==> r.notice != NoClick
    ensures clicked ==> (r.notice == NothingToAnalyse <==> r.next.datos == [])
    ensures clicked && r.next.datos != [] ==> r.notice == Analysed
    ensures r.notice == NothingToAnalyse ==> r.next.resultados == s.resultados
    ensures r.notice == Analysed ==> r.next.resultados == Some(Detect(r.next.datos, forest))
    ensures Reportable(s) ==> Reportable(r.next)
    ensures |s.datos| > 0 ==> |r.next.datos| > 0 && r.notice != NothingToAnalyse
  {
    var edit := ApplyEdit(s.datos, text);
    var datos := edit.datos;
    if !clicked then
      Step(Session(datos, s.resultados), edit.error, NoClick)
    else if |datos| > 0 then
      assert LabelsEach(forest, AsReals(datos));
      Step(Session(datos, Some(Detect(datos, forest))), edit.error, Analysed)
    else
      Step(Session(datos, s.resultados), edit.error, NothingToAnalyse)
  }

  /** Proyecto.py lines 151-162: one card per anomalous index, in the
      order the indices come, each with the analysed value at that index
      and the suggestion for it. The value is always a number, so no card
      ever carries the "not numeric" message, and each card's message is the
      one of the band its value lies in. */
  method BuildReport(d: Detection) returns (entries: seq<Entry>)
    requires IndexesData(d)
    ensures |entries| == |d.anomalies|
    ensures forall k :: 0 <= k < |entries| ==>
              && entries[k].index == d.anomalies[k]
              && entries[k].value == d.data[d.anomalies[k]]
              && entries[k].suggestion == Suggest(Number(entries[k].value))
    ensures forall k :: 0 <= k < |entries| ==>
              && entries[k].suggestion != NonNumericMessage
              && entries[k].suggestion == Message(Classify(Number(entries[k].value)))
              && InBand(entries[k].value, Classify(Number(entries[k].value)))
  {
    entries := [];
    var i := 0;
    while i < |d.anomalies|
      invariant 0 <= i <= |d.anomalies|
      invariant |entries| == i
      invariant forall k :: 0 <= k < i ==>
                  && entries[k].index == d.anomalies[k]
                  && entries[k].value == d.data[d.anomalies[k]]
                  && entries[k].suggestion == Suggest(Number(entries[k].value))
    {
      var idx := d.anomalies[i];
      var valor := d.data[idx];
      var solucion := Suggest(Number(valor));
      entries := entries + [Entry(idx, valor, solucion)];
      i := i + 1;
    }
  }

  /** Proyecto.py lines 142-168: what the results section shows for a session. */
  method Render(s: Session) returns (panel: Panel)
    requires Reportable(s)
    ensures panel == AwaitingAnalysis <==> s.resultados.None?
    ensures panel == NoAnomalies <==> s.resultados.Some? && s.resultados.value.anomalies == []
    ensures panel.Anomalies? ==>
              && |panel.entries| == |s.resultados.value.anomalies| > 0
              && forall k :: 0 <= k < |panel.entries| ==>
                   && panel.entries[k].index == s.resultados.value.anomalies[k]
                   && panel.entries[k].value == s.resultados.value.data[panel.entries[k].index]
                   && panel.entries[k].suggestion == Suggest(Number(panel.entries[k].value))
  {
    match s.resultados
    case None =>
      panel := AwaitingAnalysis;
    case Some(d) =>
      if |d.anomalies| > 0 {
        var entries := BuildReport(d);
        panel := Anomalies(entries);
      } else {
        panel := NoAnomalies;
      }
  }

  /** A run in which the box is left as shown and the button is not
      pressed changes nothing and shows no error. */
  lemma IdleRerunKeepsSession(s: Session, forest: seq<real> -> Fit)
    requires LabelsEveryPoint(forest)
    ensures Rerun(s, FormatSeries(s.datos), false, forest) == Step(s, false, NoClick)
  {
    UnchangedTextKeepsSeries(s.datos);
  }

  /** Pressing the button with the box left as shown analyses exactly the
      stored series. */
  lemma AnalyseStoredSeries(s: Session, forest: seq<real> -> Fit)
    requires LabelsEveryPoint(forest)
    requires |s.datos| > 0
    ensures Rerun(s, FormatSeries(s.datos), true, forest)
         == Step(Session(s.datos, Some(Detect(s.datos, forest))), false, Analysed)
  {
    UnchangedTextKeepsSeries(s.datos);
  }

  /** The first session is non-empty and can be shown, and so is every
      session reached from it by any sequence of runs. */
  lemma {:induction false} RunsStayReportable(texts: seq<string>, clicks: seq<bool>, forest: seq<real> -> Fit)
    requires LabelsEveryPoint(forest)
    requires |clicks| == |texts|
    ensures var s := Replay(InitialSession, texts, clicks, forest);
            Reportable(s) && |s.datos| > 0
  {
    if |texts| > 0 {
      var n := |texts| - 1;
      RunsStayReportable(texts[..n], clicks[..n], forest);
    }
  }

  /** The session after running the script once per text and click. */
  function Replay(s: Session, texts: seq<string>, clicks: seq<bool>, forest: seq<real> -> Fit): Session
    requires LabelsEveryPoint(forest)
    requires |clicks| == |texts|
  {
    if |texts| == 0 then s
    else
      var n := |texts| - 1;
      Rerun(Replay(s, texts[..n], clicks[..n], forest), texts[n], clicks[n], forest).next
  }

  /** The band of each value of the initial series: the 950000 spike at
      index 13, the 500 dip at index 18, the two high values at indices 8
      and 9, and the default band everywhere else. */
  lemma InitialSeriesBands()
    ensures forall i :: 0 <= i < |InitialSeries| ==>
              Classify(Number(InitialSeries[i] as real))
                == if i == 13 then ExtremeSpike
                   else if i == 18 then DrasticDrop
                   else if i == 8 || i == 9 then SustainedHigh
                   else UnusualPattern
  {
  }
}

=== FILE: detector.dfy ===
/** `detectar_anomalias` (Proyecto.py): a series with fewer than two points
    is handed back untouched with no predictions; otherwise it is converted
    to floats, an isolation forest labels every point inlier (`1`) or
    outlier (`-1`), and the positions of the outliers are collected with
    `np.where(predicciones == -1)[0]`. The forest itself is a parameter: the
    model says what is done with its labels, not how they are chosen. */
module Detector {

  /** One label of `IsolationForest.predict`: `1` or `-1`. */
  datatype Label = Inlier | Outlier

  /** What fitting and predicting gives: a label per point, or the
      exception that the `except Exception` branch turns into an empty
      result. */
  datatype Fit = Fitted(labels: seq<Label>) | FitFailed

  /** The triple `detectar_anomalias` returns: the data, the predictions
      and the indices of the anomalies. */
  datatype Detection = Detection(data: seq<real>, predictions: seq<Label>, anomalies: seq<nat>)

  /** The guard: an isolation forest needs at least two points. */
  const MinPoints: nat := 2

  /** The forest labels each of the points it is given, as `predict` on
      the training matrix does. */
  predicate LabelsEach(forest: seq<real> -> Fit, xs: seq<real>) {
    forest(xs).Fitted? ==> |forest(xs).labels| == |xs|
  }

  /** The forest labels each point of every series it is given. */
  ghost predicate LabelsEveryPoint(forest: seq<real> -> Fit) {
    forall xs :: LabelsEach(forest, xs)
  }

  /** `np.array(datos, dtype=float)`: the same values as reals. */
  function AsReals(xs: seq<int>): (ys: seq<real>)
    ensures |ys| == |xs|
    ensures forall i :: 0 <= i < |xs| ==> ys[i] == xs[i] as real
  {
    seq(|xs|, i requires 0 <= i < |xs| => xs[i] as real)
  }

  /** `idx` is what `np.where(labels == -1)[0]` gives: exactly the
      positions of the outliers, each once, in increasing order. */
  predicate ListsOutliers(labels: seq<Label>, idx: seq<nat>) {
    && (forall k :: 0 <= k < |idx| ==> idx[k] < |labels| && labels[idx[k]] == Outlier)
    && (forall k, m :: 0 <= k < m < |idx| ==> idx[k] < idx[m])
    && (forall i :: 0 <= i < |labels| && labels[i] == Outlier ==> i in idx)
  }

  /** `np.where(labels == -1)[0]`, built from the front of the labels: the
      outlier positions, each once, in increasing order. */
  function OutlierIndices(labels: seq<Label>): (idx: seq<nat>)
    ensures ListsOutliers(labels, idx)
  {
    if |labels| == 0 then []
    else
      var n := |labels| - 1;
      var init := OutlierIndices(labels[..n]);
      ListsOutliersExtend(labels, init);
      if labels[n] == Outlier then init + [n] else init
  }

  /** The outlier positions of all labels but the last, followed by the
      last position when it is an outlier, are the outlier positions of all
      the labels. */
  lemma ListsOutliersExtend(labels: seq<Label>, init: seq<nat>)
    requires |labels| > 0
    ensures ListsOutliers(labels[..|labels| - 1], init) && labels[|labels| - 1] == Outlier ==>
              ListsOutliers(labels, init + [|labels| - 1])
    ensures ListsOutliers(labels[..|labels| - 1], init) && labels[|labels| - 1] == Inlier ==>
              ListsOutliers(labels, init)
  {
    var n := |labels| - 1;
    var front := labels[..n];
    if ListsOutliers(front, init) {
      if labels[n] == Outlier {
        ExtendWithOutlier(labels, init);
      } else {
        assert forall k :: 0 <= k < |init| ==> init[k] < n && labels[init[k]] == front[init[k]];
        forall i | 0 <= i < |labels| && labels[i] == Outlier
          ensures i in init
        {
          assert front[i] == Outlier;
        }
      }
    }
  }

  /** An outlier appended after labels whose outlier positions are `init`
      adds its own position at the end. */
  lemma ExtendWithOutlier(labels: seq<Label>, init: seq<nat>)
    requires |labels| > 0 && labels[|labels| - 1] == Outlier
    requires ListsOutliers(labels[..|labels| - 1], init)
    ensures ListsOutliers(labels, init + [|labels| - 1])
  {
    var n := |labels| - 1;
    var front := labels[..n];
    var idx := init + [n];
    assert forall k :: 0 <= k < |idx| ==> idx[k] < |labels| && labels[idx[k]] == Outlier by {
      forall k | 0 <= k < |idx|
        ensures idx[k] < |labels| && labels[idx[k]] == Outlier
      {
        if k < |init| {
          assert idx[k] == init[k] && front[init[k]] == Outlier;
        }
      }
    }
    assert forall k, m :: 0 <= k < m < |idx| ==> idx[k] < idx[m] by {
      forall k, m | 0 <= k < m < |idx|
        ensures idx[k] < idx[m]
      {
        assert idx[k] == init[k] && init[k] < n;
      }
    }
    assert forall i :: 0 <= i < |labels| && labels[i] == Outlier ==> i in idx by {
      forall i | 0 <= i < |labels| && labels[i] == Outlier
        ensures i in idx
      {
        if i < n {
          assert front[i] == Outlier;
        }
      }
    }
  }

  /** `detectar_anomalias(datos)` on a series of integers: below the guard
      the series comes back as it is with nothing predicted; otherwise the
      predictions are the forest's labels and the anomalies are exactly the
      outlier positions, in order; a failing forest leaves both empty. */
  function Detect(datos: seq<int>, forest: seq<real> -> Fit): (d: Detection)
    requires LabelsEach(forest, AsReals(datos))
    ensures d.data == AsReals(datos)
    ensures d.predictions == [] <==> |datos| < MinPoints || forest(d.data).FitFailed?
    ensures d.predictions != [] ==> d.predictions == forest(d.data).labels
    ensures d.predictions == [] ==> d.anomalies == []
    ensures ListsOutliers(d.predictions, d.anomalies)
    ensures forall k :: 0 <= k < |d.anomalies| ==> d.anomalies[k] < |d.data|
  {
    var xs := AsReals(datos);
    if |datos| < MinPoints then Detection(xs, [], [])
    else
      match forest(xs)
      case FitFailed => Detection(xs, [], [])
      case Fitted(labels) =>
        Detection(xs, labels, OutlierIndices(labels))
  }

  /** Below the guard the forest is never consulted: any two forests give
      the same result. */
  lemma GuardIgnoresForest(datos: seq<int>, f: seq<real> -> Fit, g: seq<real> -> Fit)
    requires |datos| < MinPoints
    requires LabelsEach(f, AsReals(datos)) && LabelsEach(g, AsReals(datos))
    ensures Detect(datos, f) == Detect(datos, g)
  {
  }

  /** A position is reported as an anomaly exactly when the forest fitted,
      the series passed the guard, and the forest labelled that point an
      outlier. */
  lemma AnomalyIffOutlier(datos: seq<int>, forest: seq<real> -> Fit, i: nat)
    requires LabelsEach(forest, AsReals(datos))
    ensures i in Detect(datos, forest).anomalies
        <==> && |datos| >= MinPoints
             && forest(AsReals(datos)).Fitted?
             && i < |datos|
             && forest(AsReals(datos)).labels[i] == Outlier
  {
  }

  /** Two increasing index lists that hold the same positions are the same
      list: `np.where` has only one possible answer. */
  lemma {:induction false} IncreasingListsUnique(a: seq<nat>, b: seq<nat>)
    requires forall k, m :: 0 <= k < m < |a| ==> a[k] < a[m]
    requires forall k, m :: 0 <= k < m < |b| ==> b[k] < b[m]
    requires forall i :: i in a <==> i in b
    ensures a == b
  {
    assert |a| > 0 ==> a[0] in b;
    assert |b| > 0 ==> b[0] in a;
    if |a| > 0 && |b| > 0 {
      assert a[0] == b[0] by {
        assert a[0] in b && b[0] in a;
      }
      assert forall i :: i in a[1..] <==> i in b[1..] by {
        forall i
          ensures i in a[1..] <==> i in b[1..]
        {
          if i in a[1..] {
            assert i in b && i != b[0];
          }
          if i in b[1..] {
            assert i in a && i != a[0];
          }
        }
      }
      IncreasingListsUnique(a[1..], b[1..]);
      assert a == [a[0]] + a[1..] && b == [b[0]] + b[1..];
    }
  }

  /** Any list of outlier positions is the one `OutlierIndices` builds. */
  lemma OutlierIndicesUnique(labels: seq<Label>, idx: seq<nat>)
    requires ListsOutliers(labels, idx)
    ensures idx == OutlierIndices(labels)
  {
    IncreasingListsUnique(idx, OutlierIndices(labels));
  }
}

=== FILE: intliterals.dfy ===
/** Decimal integer text as the script reads and writes it: `str(n)` for
    the stored integers and `int(t)` for each piece the user typed. */
module IntLiterals {
  import opened Outcomes

  predicate IsDigit(c: char) {
    '0' <= c <= '9'
  }

  predicate AllDigits(s: string) {
    forall i :: 0 <= i < |s| ==> IsDigit(s[i])
  }

  function DigitChar(d: nat): (c: char)
    requires d < 10
    ensures IsDigit(c)
  {
    (('0' as int) + d) as char
  }

  function DigitValue(c: char): (d: nat)
    requires IsDigit(c)
    ensures d < 10 && DigitChar(d) == c
  {
    (c as int) - ('0' as int)
  }

  /** The number a run of decimal digits spells, most significant first. */
  function DigitsValue(s: string): nat
    requires AllDigits(s)
  {
    if |s| == 0 then 0 else DigitsValue(s[..|s| - 1]) * 10 + DigitValue(s[|s| - 1])
  }

  /** The text `str` gives a non-negative integer: at least one digit, and
      no leading zero unless the number is zero itself. */
  predicate CanonicalNat(s: string) {
    |s| >= 1 && AllDigits(s) && (|s| > 1 ==> s[0] != '0')
  }

  /** The text `str` gives any integer: a canonical magnitude, preceded by
      `-` exactly when the number is negative (so never `-0`). */
  predicate Canonical(s: string) {
    || CanonicalNat(s)
    || (|s| >= 2 && s[0] == '-' && CanonicalNat(s[1..]) && s[1..] != "0")
  }

  /** `str(n)` for `n >= 0`: canonical digits that spell `n`. */
  function FormatNat(n: nat): (s: string)
    ensures CanonicalNat(s)
    ensures DigitsValue(s) == n
  {
    if n < 10 then [DigitChar(n)]
    else
      var s := FormatNat(n / 10) + [DigitChar(n % 10)];
      assert s[..|s| - 1] == FormatNat(n / 10);
      assert DigitValue(DigitChar(n % 10)) == n % 10;
      s
  }

  /** `int(t)` restricted to what this model accepts: an optional `+` or
      `-` followed by one or more ASCII decimal digits (leading zeros
      allowed). `None` stands for the `ValueError` Python raises. */
  function ParseInt(t: string): (r: Option<int>)
    ensures r.Some? <==>
              && |t| >= 1
              && (IsDigit(t[0]) || (|t| >= 2 && (t[0] == '+' || t[0] == '-')))
              && forall i :: 1 <= i < |t| ==> IsDigit(t[i])
    ensures r.Some? && r.value < 0 ==> t[0] == '-'
  {
    if |t| > 0 && (t[0] == '+' || t[0] == '-') then
      var body := t[1..];
      if |body| > 0 && AllDigits(body) then
        var magnitude: int := DigitsValue(body);
        Some(if t[0] == '-' then -magnitude else magnitude)
      else None
    else if |t| > 0 && AllDigits(t) then Some(DigitsValue(t))
    else None
  }

  /** `str(n)`: canonical text that `int` reads back as `n`. */
  function FormatInt(n: int): (s: string)
    ensures Canonical(s)
    ensures ParseInt(s) == Some(n)
  {
    if n < 0 then
      var s := "-" + FormatNat(-n);
      assert s[1..] == FormatNat(-n);
      assert FormatNat(-n) != "0";
      s
    else
      FormatNat(n)
  }

  /** A canonical magnitude with a non-zero leading digit spells a
      positive number. */
  lemma {:induction false} LeadingDigitPositive(s: string)
    requires CanonicalNat(s) && s != "0"
    ensures DigitsValue(s) >= 1
  {
    if |s| > 1 {
      var p := s[..|s| - 1];
      assert p[0] == s[0];
      LeadingDigitPositive(p);
    }
  }

  /** On canonical digit strings `str` undoes `int`. */
  lemma {:induction false} FormatNatOfCanonical(s: string)
    requires CanonicalNat(s)
    ensures FormatNat(DigitsValue(s)) == s
  {
    if |s| > 1 {
      var p := s[..|s| - 1];
      var d := DigitValue(s[|s| - 1]);
      assert p[0] == s[0];
      assert CanonicalNat(p);
      assert p != "0";
      LeadingDigitPositive(p);
      FormatNatOfCanonical(p);
      var v := DigitsValue(s);
      assert v == DigitsValue(p) * 10 + d;
      assert v / 10 == DigitsValue(p) && v % 10 == d;
      assert s == p + [s[|s| - 1]];
    } else {
      assert s == [DigitChar(DigitValue(s[0]))];
    }
  }

  /** `str` and `int` are inverse on canonical text: a canonical literal
      that parses to `n` is exactly `str(n)`. */
  lemma FormatParseCanonical(s: string, n: int)
    requires Canonical(s) && ParseInt(s) == Some(n)
    ensures FormatInt(n) == s
  {
    if s[0] == '-' {
      var body := s[1..];
      LeadingDigitPositive(body);
      FormatNatOfCanonical(body);
      assert s == "-" + body;
    } else {
      FormatNatOfCanonical(s);
    }
  }

  /** A `0` in front of a run of digits does not change the number it
      spells. */
  lemma {:induction false} LeadingZeroValue(d: string)
    requires AllDigits(d)
    ensures AllDigits("0" + d) && DigitsValue("0" + d) == DigitsValue(d)
  {
    var z := "0" + d;
    if |d| > 0 {
      var p := d[..|d| - 1];
      LeadingZeroValue(p);
      assert z[..|z| - 1] == "0" + p;
      assert z[|z| - 1] == d[|d| - 1];
    } else {
      assert z[..0] == [];
    }
  }

  /** `int` ignores leading zeros: `int("0" + d) == int(d)`. */
  lemma ParseIntLeadingZero(d: string)
    requires |d| > 0 && AllDigits(d)
    ensures ParseInt("0" + d) == ParseInt(d)
  {
    LeadingZeroValue(d);
  }

  /** `int` ignores a leading plus sign: `int("+" + d) == int(d)`. */
  lemma ParseIntPlus(d: string)
    requires |d| > 0 && AllDigits(d)
    ensures ParseInt("+" + d) == ParseInt(d)
  {
    assert ("+" + d)[1..] == d;
  }

  /** A leading minus sign negates: `int("-" + d) == -int(d)`, so
      `int("-0") == 0`. */
  lemma ParseIntMinus(d: string)
    requires |d| > 0 && AllDigits(d)
    ensures ParseInt(d).Some? && ParseInt("-" + d) == Some(-ParseInt(d).value)
  {
    assert ("-" + d)[1..] == d;
  }

  /** What `int` makes of a few texts the user might type with leading
      zeros or a sign. */
  lemma ParseIntExamples()
    ensures ParseInt("007") == Some(7)
    ensures ParseInt("+5") == Some(5)
    ensures ParseInt("-0") == Some(0)
    ensures ParseInt("-12") == Some(-12)
  {
    assert ParseInt("007") == Some(7) by {
      assert "0" + "07" == "007" && "0" + "7" == "07";
      ParseIntLeadingZero("07");
      ParseIntLeadingZero("7");
      assert DigitsValue("7") == 7;
    }
    assert ParseInt("+5") == Some(5) by {
      ParseIntPlus("5");
    }
    assert ParseInt("-0") == Some(0) by {
      ParseIntMinus("0");
    }
    assert ParseInt("-12") == Some(-12) by {
      ParseIntMinus("12");
    }
  }

  /** Texts `int` rejects: nothing, a sign alone, a decimal point, an
      inner space, a letter. */
  lemma ParseIntRejections()
    ensures ParseInt("") == None && ParseInt("+") == None && ParseInt("-") == None
    ensures ParseInt("1.5") == None && ParseInt("1 2") == None && ParseInt("x") == None
  {
    assert "1.5"[1] == '.';
    assert "1 2"[1] == ' ';
  }
}

=== FILE: outcomes.dfy ===
/** The result of a step of the script that can raise: the value it
    computes, or nothing when Python raises and the script catches it. */
module Outcomes {

  /** `Some(v)` when the step produced `v`; `None` when it raised a
      `ValueError` (the text box) or there is nothing stored yet (the last
      analysis). */
  datatype Option<T> = None | Some(value: T)
}

=== FILE: pytext.dfy ===
/** The three Python string operations the data-entry box relies on:
    `str.split(sep)`, `str.strip()` and `sep.join(parts)`. */
module PyText {

  /** The characters CPython's `str.isspace()` accepts, which are the ones
      `str.strip()` with no argument removes: U+0009..U+000D,
      U+001C..U+0020, U+0085, U+00A0, U+1680, U+2000..U+200A, U+2028,
      U+2029, U+202F, U+205F and U+3000. */
  const Whitespace: set<char> := {
      '\U{9}', '\U{A}', '\U{B}', '\U{C}', '\U{D}', '\U{1C}', '\U{1D}', '\U{1E}',
      '\U{1F}', '\U{20}', '\U{85}', '\U{A0}', '\U{1680}', '\U{2000}', '\U{2001}', '\U{2002}',
      '\U{2003}', '\U{2004}', '\U{2005}', '\U{2006}', '\U{2007}', '\U{2008}', '\U{2009}', '\U{200A}',
      '\U{2028}', '\U{2029}', '\U{202F}', '\U{205F}', '\U{3000}'
    }

  predicate IsSpace(c: char) {
    c in Whitespace
  }

  /** Every character of `s` is whitespace. */
  predicate AllSpace(s: string) {
    |s| == 0 || (IsSpace(s[0]) && AllSpace(s[1..]))
  }

  /** Whitespace followed by whitespace is whitespace. */
  lemma {:induction false} AllSpaceAppend(a: string, b: string)
    requires AllSpace(a) && AllSpace(b)
    ensures AllSpace(a + b)
  {
    if |a| > 0 {
      assert (a + b)[1..] == a[1..] + b;
      AllSpaceAppend(a[1..], b);
    } else {
      assert a + b == b;
    }
  }

  /** `sep.join(parts)`: the parts in order, `sep` between neighbours. */
  function JoinWith(parts: seq<string>, sep: string): string {
    if |parts| == 0 then ""
    else if |parts| == 1 then parts[0]
    else parts[0] + sep + JoinWith(parts[1..], sep)
  }

  /** `s.split(sep)` for a one-character separator. The pieces are exactly
      the maximal separator-free runs of `s`: joining them back with the
      separator gives `s`, and there is always at least one piece. */
  function Split(s: string, sep: char): (pieces: seq<string>)
    ensures |pieces| >= 1
    ensures JoinWith(pieces, [sep]) == s
    ensures forall i :: 0 <= i < |pieces| ==> sep !in pieces[i]
  {
    if |s| == 0 then [""]
    else
      var rest := Split(s[1..], sep);
      if s[0] == sep then
        assert s == [sep] + s[1..];
        [""] + rest
      else
        assert s == [s[0]] + s[1..];
        [[s[0]] + rest[0]] + rest[1..]
  }

  /** `s.lstrip()`: the suffix of `s` left after dropping its leading
      whitespace; it is empty or starts with a non-whitespace character. */
  function StripStart(s: string): (t: string)
    ensures |t| <= |s| && t == s[|s| - |t|..]
    ensures t == [] || !IsSpace(t[0])
  {
    if |s| > 0 && IsSpace(s[0]) then StripStart(s[1..]) else s
  }

  /** `s.rstrip()`: the prefix of `s` left after dropping its trailing
      whitespace; it is empty or ends with a non-whitespace character. */
  function StripEnd(s: string): (t: string)
    ensures |t| <= |s| && t == s[..|t|]
    ensures t == [] || !IsSpace(t[|t| - 1])
  {
    if |s| > 0 && IsSpace(s[|s| - 1]) then StripEnd(s[..|s| - 1]) else s
  }

  /** What `lstrip` drops is whitespace. */
  lemma {:induction false} StripStartDropsOnlySpace(s: string)
    ensures AllSpace(s[..|s| - |StripStart(s)|])
  {
    if |s| > 0 && IsSpace(s[0]) {
      var t := StripStart(s[1..]);
      StripStartDropsOnlySpace(s[1..]);
      assert s[..|s| - |t|][1..] == s[1..][..|s| - 1 - |t|];
    } else {
      assert s[..0] == [];
    }
  }

  /** What `rstrip` drops is whitespace. */
  lemma {:induction false} StripEndDropsOnlySpace(s: string)
    ensures AllSpace(s[|StripEnd(s)|..])
  {
    if |s| > 0 && IsSpace(s[|s| - 1]) {
      var p := s[..|s| - 1];
      var t := StripEnd(p);
      StripEndDropsOnlySpace(p);
      assert AllSpace([s[|s| - 1]]);
      AllSpaceAppend(p[|t|..], [s[|s| - 1]]);
      assert s[|t|..] == p[|t|..] + [s[|s| - 1]];
    } else {
      assert s[|s|..] == [];
    }
  }

  /** `s.strip()`: the middle of `s` once whitespace at both ends is gone.
      The result is the slice of `s` that starts right after the leading
      whitespace, and it neither starts nor ends with whitespace. */
  function Strip(s: string): (t: string)
    ensures |t| <= |s|
    ensures t == [] || (!IsSpace(t[0]) && !IsSpace(t[|t| - 1]))
  {
    var a := StripStart(s);
    var t := StripEnd(a);
    assert t != [] ==> t[0] == a[0];
    t
  }

  /** `strip` removes whitespace only: what it returns is a slice of `s`
      with nothing but whitespace before and after it. */
  lemma StripIsSlice(s: string)
    ensures exists i :: 0 <= i <= |s| - |Strip(s)|
                        && Strip(s) == s[i..i + |Strip(s)|]
                        && AllSpace(s[..i]) && AllSpace(s[i + |Strip(s)|..])
  {
    var a := StripStart(s);
    var t := StripEnd(a);
    var i := |s| - |a|;
    StripStartDropsOnlySpace(s);
    StripEndDropsOnlySpace(a);
    assert a == s[i..];
    SliceOfSuffix(s, i, |t|);
    assert t == s[i..i + |t|];
    assert s[i + |t|..] == a[|t|..];
  }

  /** `lstrip` empties exactly the strings made of whitespace alone. */
  lemma {:induction false} StripStartEmptyIffAllSpace(s: string)
    ensures StripStart(s) == [] <==> AllSpace(s)
  {
    if |s| > 0 && IsSpace(s[0]) {
      StripStartEmptyIffAllSpace(s[1..]);
    }
  }

  /** `strip` empties exactly the strings made of whitespace alone. */
  lemma StripEmptyIffAllSpace(s: string)
    ensures Strip(s) == [] <==> AllSpace(s)
  {
    StripStartEmptyIffAllSpace(s);
    var a := StripStart(s);
    StripEndDropsOnlySpace(a);
    assert a[0..] == a;
  }

  /** Slicing a suffix is slicing the original further along. */
  lemma SliceOfSuffix(s: string, i: nat, n: nat)
    requires i + n <= |s|
    ensures s[i..][..n] == s[i..i + n]
    ensures s[i..][n..] == s[i + n..]
  {
  }

  /** A string whose two ends are not whitespace is left alone by `strip`. */
  lemma StripTrimmed(s: string)
    requires s == [] || (!IsSpace(s[0]) && !IsSpace(s[|s| - 1]))
    ensures Strip(s) == s
  {
    assert StripStart(s) == s;
    assert StripEnd(s) == s;
    assert Strip(s) == StripEnd(StripStart(s));
  }

  /** Leading whitespace never survives `lstrip`. */
  lemma {:induction false} StripStartDropsSpace(w: string, s: string)
    requires AllSpace(w)
    ensures StripStart(w + s) == StripStart(s)
  {
    if |w| > 0 {
      assert (w + s)[0] == w[0];
      assert (w + s)[1..] == w[1..] + s;
      StripStartDropsSpace(w[1..], s);
    } else {
      assert w + s == s;
    }
  }

  /** Leading whitespace never survives `strip`. */
  lemma StripDropsLeadingSpace(w: string, s: string)
    requires AllSpace(w)
    ensures Strip(w + s) == Strip(s)
  {
    StripStartDropsSpace(w, s);
  }

  /** Trailing whitespace never survives `rstrip`. */
  lemma {:induction false} StripEndDropsSpace(s: string, w: string)
    requires AllSpace(w)
    ensures StripEnd(s + w) == StripEnd(s)
    decreases |w|
  {
    if |w| > 0 {
      var s' := s + [w[0]];
      assert s + w == s' + w[1..];
      StripEndDropsSpace(s', w[1..]);
      assert s'[..|s|] == s;
    } else {
      assert s + w == s;
    }
  }

  /** Whitespace after a trimmed text never survives `strip`. */
  lemma StripDropsTrailingSpace(t: string, v: string)
    requires AllSpace(v)
    requires t == [] || (!IsSpace(t[0]) && !IsSpace(t[|t| - 1]))
    ensures Strip(t + v) == t
  {
    if t == [] {
      assert t + v == v;
      StripStartEmptyIffAllSpace(v);
    } else {
      assert StripStart(t + v) == t + v by {
        assert (t + v)[0] == t[0];
      }
      StripEndDropsSpace(t, v);
      assert StripEnd(t) == t;
    }
  }

  /** Whitespace on either side of a trimmed text never survives `strip`. */
  lemma StripDropsSurroundingSpace(w: string, t: string, v: string)
    requires AllSpace(w) && AllSpace(v)
    requires t == [] || (!IsSpace(t[0]) && !IsSpace(t[|t| - 1]))
    ensures Strip(w + (t + v)) == t
  {
    StripDropsLeadingSpace(w, t + v);
    StripDropsTrailingSpace(t, v);
  }

  /** Splitting a string that starts with a separator-free run `a`
      followed by the separator yields `a` and then the pieces of the rest. */
  lemma {:induction false} SplitAfterPiece(a: string, b: string, sep: char)
    requires sep !in a
    ensures Split(a + [sep] + b, sep) == [a] + Split(b, sep)
  {
    if |a| == 0 {
      assert a + [sep] + b == [sep] + b;
      assert ([sep] + b)[1..] == b;
    } else {
      var s := a + [sep] + b;
      assert s[0] == a[0];
      assert s[1..] == a[1..] + [sep] + b;
      SplitAfterPiece(a[1..], b, sep);
      assert [a[0]] + a[1..] == a;
    }
  }

  /** Splitting a string that contains no separator yields that string. */
  lemma {:induction false} SplitWithoutSeparator(a: string, sep: char)
    requires sep !in a
    ensures Split(a, sep) == [a]
  {
    if |a| > 0 {
      assert sep !in a[1..];
      SplitWithoutSeparator(a[1..], sep);
      assert [a[0]] + a[1..] == a;
    }
  }

  /** Prepending a non-separator character only extends the first piece. */
  lemma SplitPrepend(c: char, s: string, sep: char)
    requires c != sep
    ensures Split([c] + s, sep) == [[c] + Split(s, sep)[0]] + Split(s, sep)[1..]
  {
    assert ([c] + s)[1..] == s;
  }
}

=== FILE: seriesinput.dfy ===
/** The editable text box of the dashboard: the stored series is shown as
    `", ".join(map(str, datos))`, and whatever the user leaves in the box is
    read back with `[int(x.strip()) for x in text.split(',') if x.strip()]`.
    The stored series changes only when every piece parses and at least one
    number results. */
module SeriesInput {
  import opened Outcomes
  import opened PyText
  import opened IntLiterals

  /** `map(str, xs)`. */
  function Texts(xs: seq<int>): (ts: seq<string>)
    ensures |ts| == |xs|
  {
    if |xs| == 0 then [] else [FormatInt(xs[0])] + Texts(xs[1..])
  }

  /** The text shown in the box for the stored series. Splitting it at the
      commas gives one piece per number: `str` of the first, and `str` of
      each later one behind the space that followed its comma. The empty
      series is an empty box. */
  function FormatSeries(xs: seq<int>): (s: string)
    ensures xs == [] ==> s == ""
    ensures xs != [] ==> Split(s, ',') == [FormatInt(xs[0])] + Spaced(Texts(xs[1..]))
  {
    JoinedTextsSplit(xs);
    JoinWith(Texts(xs), ", ")
  }

  /** The pieces of `", ".join(map(str, xs))` at the commas. */
  lemma JoinedTextsSplit(xs: seq<int>)
    ensures xs != [] ==> Split(JoinWith(Texts(xs), ", "), ',') == [FormatInt(xs[0])] + Spaced(Texts(xs[1..]))
  {
    if xs != [] {
      var ts := Texts(xs);
      TextsCommaFree(xs);
      SplitJoined(ts);
      assert ts[0] == FormatInt(xs[0]) && ts[1..] == Texts(xs[1..]);
    }
  }

  /** A piece that `if x.strip()` skips: nothing but whitespace. */
  predicate Blank(piece: string) {
    Strip(piece) == ""
  }

  /** A piece that is not blank but that `int` rejects. */
  predicate Malformed(piece: string) {
    !Blank(piece) && ParseInt(Strip(piece)).None?
  }

  /** Some piece satisfies `p`, scanning from the first. */
  predicate AnyPiece(p: string -> bool, pieces: seq<string>) {
    |pieces| > 0 && (p(pieces[0]) || AnyPiece(p, pieces[1..]))
  }

  /** Some piece is malformed, scanning from the first. */
  predicate AnyMalformed(pieces: seq<string>) {
    AnyPiece(Malformed, pieces)
  }

  /** Some piece, wherever it is, is malformed. */
  predicate SomeMalformed(pieces: seq<string>) {
    exists i :: 0 <= i < |pieces| && Malformed(pieces[i])
  }

  /** Every piece is blank. */
  predicate AllBlank(pieces: seq<string>) {
    forall i :: 0 <= i < |pieces| ==> Blank(pieces[i])
  }

  /** How many pieces the comprehension does not skip. */
  function NonBlankCount(pieces: seq<string>): nat {
    if |pieces| == 0 then 0
    else (if Blank(pieces[0]) then 0 else 1) + NonBlankCount(pieces[1..])
  }

  /** The scan finds a piece satisfying `p` exactly when one exists. */
  lemma {:induction false} AnyPieceIffSome(p: string -> bool, pieces: seq<string>)
    ensures AnyPiece(p, pieces) <==> exists i :: 0 <= i < |pieces| && p(pieces[i])
  {
    if |pieces| > 0 {
      var tail := pieces[1..];
      AnyPieceIffSome(p, tail);
      if AnyPiece(p, pieces) {
        if !p(pieces[0]) {
          var j :| 0 <= j < |tail| && p(tail[j]);
          assert pieces[j + 1] == tail[j];
        }
      } else {
        forall i | 0 <= i < |pieces|
          ensures !p(pieces[i])
        {
          if i > 0 {
            assert pieces[i] == tail[i - 1];
          }
        }
      }
    }
  }

  /** The scan finds a malformed piece exactly when one exists. */
  lemma AnyMalformedIffSomePiece(pieces: seq<string>)
    ensures AnyMalformed(pieces) <==> exists i :: 0 <= i < |pieces| && Malformed(pieces[i])
  {
    AnyPieceIffSome(Malformed, pieces);
  }

  /** No piece survives the blank filter exactly when all are blank. */
  lemma {:induction false} NoneSurviveIffAllBlank(pieces: seq<string>)
    ensures NonBlankCount(pieces) == 0 <==> forall i :: 0 <= i < |pieces| ==> Blank(pieces[i])
  {
    if |pieces| > 0 {
      NoneSurviveIffAllBlank(pieces[1..]);
      if forall i :: 0 <= i < |pieces| ==> Blank(pieces[i]) {
        assert forall i :: 0 <= i < |pieces| - 1 ==> Blank(pieces[1..][i]) by {
          forall i | 0 <= i < |pieces| - 1
            ensures Blank(pieces[1..][i])
          {
            assert pieces[1..][i] == pieces[i + 1];
          }
        }
      }
      if NonBlankCount(pieces) == 0 {
        forall i | 0 <= i < |pieces|
          ensures Blank(pieces[i])
        {
          if i > 0 {
            assert pieces[i] == pieces[1..][i - 1];
          }
        }
      }
    }
  }

  /** The list comprehension over the pieces: blank pieces are skipped,
      every other piece is stripped and converted. `None` is the
      `ValueError` that the first malformed piece raises; otherwise there
      is one number per non-blank piece. */
  function ParsePieces(pieces: seq<string>): (r: Option<seq<int>>)
    ensures r.None? <==> AnyMalformed(pieces)
    ensures r.Some? ==> |r.value| == NonBlankCount(pieces)
  {
    if |pieces| == 0 then Some([])
    else
      var t := Strip(pieces[0]);
      var rest := ParsePieces(pieces[1..]);
      if t == "" then rest
      else
        match ParseInt(t)
        case None => None
        case Some(n) => if rest.Some? then Some([n] + rest.value) else None
  }

  /** What the box's text parses to: the error exactly when some piece
      between commas is malformed, and otherwise one number per non-blank
      piece, so no numbers at all exactly when every piece is blank. */
  function ParseSeries(text: string): (r: Option<seq<int>>)
    ensures r.None? <==> SomeMalformed(Split(text, ','))
    ensures r.Some? ==> |r.value| == NonBlankCount(Split(text, ','))
    ensures r == Some([]) <==> AllBlank(Split(text, ','))
  {
    var pieces := Split(text, ',');
    AnyMalformedIffSomePiece(pieces);
    NoneSurviveIffAllBlank(pieces);
    ParsePieces(pieces)
  }

  /** Two comprehensions run one after the other: the numbers of the
      first followed by those of the second, or an error if either
      raises. */
  function Both(a: Option<seq<int>>, b: Option<seq<int>>): Option<seq<int>> {
    if a.Some? && b.Some? then Some(a.value + b.value) else None
  }

  /** What one piece contributes: nothing when it is blank, otherwise
      `int` of its stripped text as a one-number list, or the error. */
  function PieceValue(piece: string): Option<seq<int>> {
    if Blank(piece) then Some([])
    else
      match ParseInt(Strip(piece))
      case None => None
      case Some(n) => Some([n])
  }

  /** The comprehension over a single piece is that piece's contribution. */
  lemma ParseOnePiece(piece: string)
    ensures ParsePieces([piece]) == PieceValue(piece)
  {
    assert [piece][1..] == [];
    assert ParsePieces([]) == Some([]);
    var r := ParseInt(Strip(piece));
    if r.Some? {
      assert [r.value] + [] == [r.value];
    }
  }

  /** A piece in front contributes its own numbers before those of the
      rest. */
  lemma ParsePiecesConsValue(piece: string, rest: seq<string>)
    ensures ParsePieces([piece] + rest) == Both(PieceValue(piece), ParsePieces(rest))
  {
    var pieces := [piece] + rest;
    assert pieces[0] == piece && pieces[1..] == rest;
    var tail := ParsePieces(rest);
    if tail.Some? {
      assert [] + tail.value == tail.value;
    }
  }

  /** Running three comprehensions in a row does not depend on grouping. */
  lemma BothAssociative(x: Option<seq<int>>, y: Option<seq<int>>, z: Option<seq<int>>)
    ensures Both(x, Both(y, z)) == Both(Both(x, y), z)
  {
    if x.Some? && y.Some? && z.Some? {
      assert x.value + (y.value + z.value) == (x.value + y.value) + z.value;
    }
  }

  /** The comprehension over `a + b` is the one over `a` followed by the one
      over `b`: each piece contributes on its own, in order. */
  lemma {:induction false} ParsePiecesAppend(a: seq<string>, b: seq<string>)
    ensures ParsePieces(a + b) == Both(ParsePieces(a), ParsePieces(b))
  {
    if |a| == 0 {
      assert a + b == b;
      assert ParsePieces(a) == Some([]);
      var pb := ParsePieces(b);
      if pb.Some? {
        assert [] + pb.value == pb.value;
      }
    } else {
      var head, tail := a[0], a[1..];
      assert a == [head] + tail;
      assert a + b == [head] + (tail + b);
      ParsePiecesConsValue(head, tail + b);
      ParsePiecesAppend(tail, b);
      ParsePiecesConsValue(head, tail);
      BothAssociative(PieceValue(head), ParsePieces(tail), ParsePieces(b));
    }
  }

  /** The text `str(n)` is a piece worth `n`, with or without the space
      that follows a comma in front of it. */
  lemma FormattedPieceValue(n: int)
    ensures PieceValue(FormatInt(n)) == Some([n])
    ensures PieceValue(" " + FormatInt(n)) == Some([n])
  {
    PlainTextStrips(FormatInt(n), n);
  }

  /** The pieces of a two-piece text. */
  lemma SplitTwo(a: string, b: string)
    requires ',' !in a && ',' !in b
    ensures Split(a + [','] + b, ',') == [a, b]
  {
    SplitAfterPiece(a, b, ',');
    SplitWithoutSeparator(b, ',');
  }

  /** The comprehension over two pieces. */
  lemma ParseTwoPieces(a: string, b: string)
    ensures ParsePieces([a, b]) == Both(PieceValue(a), PieceValue(b))
  {
    assert [a, b] == [a] + [b];
    ParsePiecesConsValue(a, [b]);
    ParseOnePiece(b);
  }

  /** An empty piece between two commas is skipped. */
  lemma EmptyPieceSkipped()
    ensures ParseSeries("1,,2") == Some([1, 2])
  {
    assert [1] + [2] == [1, 2] && [] + [2] == [2];
    assert ["1", "", "2"] == ["1"] + ["", "2"];
    assert Split("1,,2", ',') == ["1", "", "2"] by {
      assert "1,,2" == "1" + [','] + ",2";
      SplitAfterPiece("1", ",2", ',');
      assert ",2" == "" + [','] + "2";
      SplitTwo("", "2");
    }
    OneTwoPieces();
    ParseTwoPieces("", "2");
    ParsePiecesConsValue("1", ["", "2"]);
  }

  /** What the pieces `"1"`, `""` and `"2"` contribute. */
  lemma OneTwoPieces()
    ensures PieceValue("1") == Some([1])
    ensures PieceValue("") == Some([])
    ensures PieceValue("2") == Some([2])
  {
    assert FormatInt(1) == "1";
    FormattedPieceValue(1);
    assert FormatInt(2) == "2";
    FormattedPieceValue(2);
    StripTrimmed("");
  }

  /** Spaces around a number, leading zeros and a plus sign are accepted. */
  lemma PaddedPiecesAccepted()
    ensures ParseSeries(" 007 , +5") == Some([7, 5])
  {
    assert [7] + [5] == [7, 5];
    assert Split(" 007 , +5", ',') == [" 007 ", " +5"] by {
      assert " 007 , +5" == " 007 " + [','] + " +5";
      SplitTwo(" 007 ", " +5");
    }
    ParseTwoPieces(" 007 ", " +5");
    PaddedSevenPiece();
    SignedFivePiece();
  }

  /** A number with whitespace on either side contributes that number. */
  lemma PaddedNumberPiece(w: string, t: string, v: string, n: int)
    requires AllSpace(w) && AllSpace(v)
    requires t != [] && !IsSpace(t[0]) && !IsSpace(t[|t| - 1])
    requires ParseInt(t) == Some(n)
    ensures PieceValue(w + (t + v)) == Some([n])
  {
    StripDropsSurroundingSpace(w, t, v);
  }

  /** The piece `" 007 "` contributes 7. */
  lemma PaddedSevenPiece()
    ensures PieceValue(" 007 ") == Some([7])
  {
    assert " 007 " == " " + ("007" + " ");
    assert !IsSpace('0') && !IsSpace('7') && AllSpace(" ");
    ParseIntExamples();
    PaddedNumberPiece(" ", "007", " ", 7);
  }

  /** The piece `" +5"` contributes 5. */
  lemma SignedFivePiece()
    ensures PieceValue(" +5") == Some([5])
  {
    assert " +5" == " " + ("+5" + "");
    assert !IsSpace('+') && !IsSpace('5') && AllSpace(" ") && AllSpace("");
    ParseIntExamples();
    PaddedNumberPiece(" ", "+5", "", 5);
  }

  /** One piece that is not an integer rejects the whole text. */
  lemma NonNumberRejected()
    ensures ParseSeries("1,x") == None
  {
    assert Split("1,x", ',') == ["1", "x"] by {
      assert "1,x" == "1" + [','] + "x";
      SplitTwo("1", "x");
    }
    assert ParsePieces(["1", "x"]) == None by {
      ParseTwoPieces("1", "x");
      NotANumberPiece();
    }
  }

  /** The piece `"x"` is malformed. */
  lemma NotANumberPiece()
    ensures PieceValue("x") == None
  {
    assert !IsSpace('x') && !IsDigit('x');
    assert ParseInt("x") == None;
    MalformedPaddedPiece("", "x", "");
    assert "" + ("x" + "") == "x";
  }

  /** Text that `int` rejects, with whitespace on either side, makes the
      whole comprehension fail. */
  lemma MalformedPaddedPiece(w: string, t: string, v: string)
    requires AllSpace(w) && AllSpace(v)
    requires t != [] && !IsSpace(t[0]) && !IsSpace(t[|t| - 1])
    requires ParseInt(t) == None
    ensures PieceValue(w + (t + v)) == None
  {
    StripDropsSurroundingSpace(w, t, v);
  }

  /** The stored series after one pass over the box, and whether the
      "integers separated by commas" error is shown. */
  datatype EditOutcome = EditOutcome(datos: seq<int>, error: bool)

  /** Proyecto.py lines 115-118, once the comprehension has run: a
      failed parse shows the error and keeps the stored series, an empty
      list keeps it silently, and a non-empty list replaces it. */
  function UpdateSeries(datos: seq<int>, parsed: Option<seq<int>>): (r: EditOutcome)
    ensures r.error <==> parsed.None?
    ensures r.error ==> r.datos == datos
    ensures parsed == Some([]) ==> r == EditOutcome(datos, false)
    ensures parsed.Some? && |parsed.value| > 0 ==> r == EditOutcome(parsed.value, false)
    ensures r.datos != datos ==> parsed == Some(r.datos) && |r.datos| > 0
    ensures |datos| > 0 ==> |r.datos| > 0
  {
    match parsed
    case None => EditOutcome(datos, true)
    case Some(xs) => if |xs| > 0 then EditOutcome(xs, false) else EditOutcome(datos, false)
  }

  /** Proyecto.py lines 112-118: read the box, then apply the update rule.
      The error is shown exactly when some piece is malformed, and then the
      series is kept; a box of blank pieces keeps it silently; otherwise
      the series becomes what the box holds, which is never empty. */
  function ApplyEdit(datos: seq<int>, text: string): (r: EditOutcome)
    ensures r.error <==> SomeMalformed(Split(text, ','))
    ensures r.error ==> r.datos == datos
    ensures AllBlank(Split(text, ',')) ==> r == EditOutcome(datos, false)
    ensures r.datos == datos || (ParseSeries(text) == Some(r.datos) && r.datos != [])
    ensures !SomeMalformed(Split(text, ',')) && !AllBlank(Split(text, ',')) ==>
              r == EditOutcome(ParseSeries(text).value, false)
    ensures |datos| > 0 ==> |r.datos| > 0
  {
    UpdateSeries(datos, ParseSeries(text))
  }

  /** Each piece of `", "`-joined text after the first carries the space
      that followed the comma. */
  function Spaced(ts: seq<string>): seq<string> {
    if |ts| == 0 then [] else [" " + ts[0]] + Spaced(ts[1..])
  }

  /** `str(n)` holds no whitespace and no comma. */
  lemma FormatIntPlain(n: int)
    ensures ',' !in FormatInt(n)
    ensures forall i :: 0 <= i < |FormatInt(n)| ==> !IsSpace(FormatInt(n)[i])
  {
    var s := FormatInt(n);
    assert forall i :: 0 <= i < |s| ==> s[i] == '-' || IsDigit(s[i]) by {
      if !CanonicalNat(s) {
        assert forall i :: 1 <= i < |s| ==> s[i] == s[1..][i - 1];
      }
    }
  }

  /** Unfolding `", ".join` once, with the comma split off. */
  lemma JoinedShape(ts: seq<string>)
    requires |ts| >= 2
    ensures JoinWith(ts, ", ") == ts[0] + [','] + ([' '] + JoinWith(ts[1..], ", "))
  {
  }

  /** No text of `map(str, xs)` holds a comma. */
  lemma {:induction false} TextsCommaFree(xs: seq<int>)
    ensures forall i :: 0 <= i < |Texts(xs)| ==> ',' !in Texts(xs)[i]
  {
    if |xs| > 0 {
      FormatIntPlain(xs[0]);
      TextsCommaFree(xs[1..]);
      assert forall i :: 1 <= i < |Texts(xs)| ==> Texts(xs)[i] == Texts(xs[1..])[i - 1];
    }
  }

  /** Splitting `", "`-joined comma-free texts at the commas gives back the
      texts, all but the first with their leading space. */
  lemma {:induction false} SplitJoined(ts: seq<string>)
    requires |ts| >= 1
    requires forall i :: 0 <= i < |ts| ==> ',' !in ts[i]
    ensures Split(JoinWith(ts, ", "), ',') == [ts[0]] + Spaced(ts[1..])
  {
    if |ts| == 1 {
      SplitWithoutSeparator(ts[0], ',');
      assert Spaced(ts[1..]) == [];
    } else {
      var tail := JoinWith(ts[1..], ", ");
      JoinedShape(ts);
      SplitAfterPiece(ts[0], [' '] + tail, ',');
      SplitPrepend(' ', tail, ',');
      SplitJoined(ts[1..]);
      assert ts[1..][1..] == ts[2..];
      var st := Split(tail, ',');
      assert st == [ts[1]] + Spaced(ts[2..]);
      assert st[0] == ts[1];
      assert st[1..] == Spaced(ts[2..]);
      assert Split([' '] + tail, ',') == [" " + ts[1]] + Spaced(ts[2..]);
      assert Spaced(ts[1..]) == [" " + ts[1]] + Spaced(ts[2..]);
    }
  }

  /** Every spaced `str(n)` piece parses back to its `n`, in order. */
  lemma {:induction false} ParseSpacedTexts(ys: seq<int>)
    ensures ParsePieces(Spaced(Texts(ys))) == Some(ys)
  {
    if |ys| > 0 {
      ParseSpacedTexts(ys[1..]);
      ParseSpacedStep(ys[0], ys[1..]);
      assert [ys[0]] + ys[1..] == ys;
    }
  }

  /** One more number in front of the series adds one more spaced piece
      in front, which parses to that number. */
  lemma ParseSpacedStep(y: int, ys: seq<int>)
    ensures ParsePieces(Spaced(Texts(ys))) == Some(ys) ==>
              ParsePieces(Spaced(Texts([y] + ys))) == Some([y] + ys)
  {
    var head := [' '] + FormatInt(y);
    var tail := Spaced(Texts(ys));
    PlainTextStrips(FormatInt(y), y);
    assert ([y] + ys)[1..] == ys;
    assert Spaced(Texts([y] + ys)) == [head] + tail;
    ParsePiecesCons(head, tail, y, ys);
  }

  /** A first piece that reads as `n`, before pieces that read as `ns`,
      gives `n` followed by `ns`. */
  lemma ParsePiecesCons(head: string, tail: seq<string>, n: int, ns: seq<int>)
    ensures Strip(head) != "" && ParseInt(Strip(head)) == Some(n) && ParsePieces(tail) == Some(ns)
            ==> ParsePieces([head] + tail) == Some([n] + ns)
  {
    assert ([head] + tail)[1..] == tail;
  }

  /** `str(n)`, with or without a space in front, strips to `str(n)`,
      which `int` reads back as `n`. */
  lemma PlainTextStrips(f: string, n: int)
    requires f == FormatInt(n)
    ensures Strip(f) == f && Strip([' '] + f) == f
    ensures f != "" && ParseInt(f) == Some(n)
  {
    FormatIntPlain(n);
    StripDropsLeadingSpace([' '], f);
    StripTrimmed(f);
  }

  /** Round trip of the text box: the text shown for any series, submitted
      unchanged, parses back to the same numbers in the same order. */
  lemma ParseFormatSeries(xs: seq<int>)
    ensures ParseSeries(FormatSeries(xs)) == Some(xs)
  {
    if |xs| == 0 {
      ParseFormatEmpty();
    } else {
      ParseFormatNonEmpty(xs);
    }
  }

  /** The empty series is shown as an empty box, which reads back as no
      numbers at all. */
  lemma ParseFormatEmpty()
    ensures ParseSeries(FormatSeries([])) == Some([])
  {
    assert FormatSeries([]) == "";
    assert Split("", ',') == [""];
    StripTrimmed("");
  }

  /** A non-empty series is shown as its first number followed by the
      spaced rest, and each piece reads back as its number. */
  lemma ParseFormatNonEmpty(xs: seq<int>)
    requires |xs| > 0
    ensures ParseSeries(FormatSeries(xs)) == Some(xs)
  {
    ParseShownPieces(xs);
  }

  /** The pieces of the text shown for a non-empty series parse back to
      that series. */
  lemma ParseShownPieces(xs: seq<int>)
    requires |xs| > 0
    ensures ParsePieces([FormatInt(xs[0])] + Spaced(Texts(xs[1..]))) == Some(xs)
  {
    var x, rest := xs[0], xs[1..];
    assert [x] + rest == xs;
    ParseSpacedTexts(rest);
    ParseFirstThenSpaced(x, rest);
  }

  /** The unspaced first piece followed by spaced pieces parses back to
      the whole series. */
  lemma ParseFirstThenSpaced(x: int, rest: seq<int>)
    ensures ParsePieces(Spaced(Texts(rest))) == Some(rest) ==>
              ParsePieces([FormatInt(x)] + Spaced(Texts(rest))) == Some([x] + rest)
  {
    PlainTextStrips(FormatInt(x), x);
    ParsePiecesCons(FormatInt(x), Spaced(Texts(rest)), x, rest);
  }

  /** Leaving the box as shown keeps the stored series and shows no error. */
  lemma UnchangedTextKeepsSeries(datos: seq<int>)
    ensures ApplyEdit(datos, FormatSeries(datos)) == EditOutcome(datos, false)
  {
    ParseFormatSeries(datos);
  }

  /** Submitting the text of any non-empty series stores that series. */
  lemma FormattedTextReplacesSeries(datos: seq<int>, xs: seq<int>)
    requires |xs| > 0
    ensures ApplyEdit(datos, FormatSeries(xs)) == EditOutcome(xs, false)
  {
    ParseFormatSeries(xs);
  }
}

=== FILE: suggestions.dfy ===
/** `sugerir_solucion` (Proyecto.py): the rule table that turns one
    anomalous traffic value into a remediation message. The rules are tried
    in order and the first that matches wins:
    `> 500000`, then `< 1000`, then `> 100000`, then a default; any value
    that is not an `int` or a `float` gets a fixed "not numeric" message. */
module Suggestions {

  /** A Python value handed to `sugerir_solucion`: an `int` or `float`
      (both taken as a real number here), or anything else. */
  datatype Value = Number(x: real) | NotNumber

  /** The five messages the function can return, one per rule. */
  datatype Category =
    | ExtremeSpike    // first rule:  value > 500000
    | DrasticDrop     // second rule: value < 1000
    | SustainedHigh   // third rule:  value > 100000
    | UnusualPattern  // default rule for numbers
    | NonNumeric      // the `isinstance` check

  const SpikeThreshold: real := 500000.0
  const DropThreshold: real := 1000.0
  const HighThreshold: real := 100000.0

  /** The values each category ends up covering once earlier rules have
      taken their share, written as disjoint intervals. */
  predicate InBand(x: real, c: Category) {
    match c
    case ExtremeSpike => SpikeThreshold < x
    case DrasticDrop => x < DropThreshold
    case SustainedHigh => HighThreshold < x <= SpikeThreshold
    case UnusualPattern => DropThreshold <= x <= HighThreshold
    case NonNumeric => false
  }

  /** The rule chain of `sugerir_solucion`. A non-number is recognised as
      such and nothing else is; a number lands in the band that holds it. */
  function Classify(v: Value): (c: Category)
    ensures v.NotNumber? <==> c == NonNumeric
    ensures v.Number? ==> InBand(v.x, c)
  {
    if v.NotNumber? then NonNumeric
    else if v.x > SpikeThreshold then ExtremeSpike
    else if v.x < DropThreshold then DrasticDrop
    else if v.x > HighThreshold then SustainedHigh
    else UnusualPattern
  }

  /** The text of the first rule. */
  const SpikeMessage: string :=
    "Pico extremo de tráfico (>500KB/s). Posible DDoS o transferencia masiva. Sugerencias: Revisar IPs origen/destino (NetFlow/logs), aplicar ACLs/filtros, verificar actividad servidores."

  /** The text of the second rule. */
  const DropMessage: string :=
    "Caída drástica de tráfico (<1KB/s). Posible fallo de enlace/dispositivo. Sugerencias: Verificar estado físico interfaz, conectividad (ping), logs del dispositivo."

  /** The text of the third rule. */
  const HighMessage: string :=
    "Tráfico elevado sostenido (>100KB/s). Posible congestión o nueva carga. Sugerencias: Identificar aplicaciones/servicios responsables, revisar QoS, evaluar necesidad de más ancho de banda."

  /** The text of the default rule. */
  const UnusualMessage: string :=
    "Patrón de tráfico inusual detectado. Sugerencias: Analizar logs y métricas detalladas (NetFlow, SNMP) del periodo."

  /** The text of the non-numeric check. */
  const NonNumericMessage: string :=
    "Valor anómalo no numérico."

  /** The exact text returned for each rule. */
  function Message(c: Category): string {
    match c
    case ExtremeSpike => SpikeMessage
    case DrasticDrop => DropMessage
    case SustainedHigh => HighMessage
    case UnusualPattern => UnusualMessage
    case NonNumeric => NonNumericMessage
  }

  /** `sugerir_solucion(valor_anomalo)`: the message of the band the value
      falls in, and the "not numeric" message exactly for non-numbers. */
  function Suggest(v: Value): (msg: string)
    ensures v.NotNumber? <==> msg == NonNumericMessage
    ensures v.Number? ==> exists c :: InBand(v.x, c) && msg == Message(c)
  {
    MessagesDistinct();
    Message(Classify(v))
  }

  /** The five messages are pairwise different, so the text alone tells
      which rule fired. */
  lemma MessagesDistinct()
    ensures forall c, d :: c != d ==> Message(c) != Message(d)
  {
  }

  /** The bands partition the real line: every number lies in exactly one
      band, and no number lies in the non-numeric one. */
  lemma BandsPartition(x: real)
    ensures exists c :: InBand(x, c)
    ensures forall c, d :: InBand(x, c) && InBand(x, d) ==> c == d
  {
    assert InBand(x, Classify(Number(x)));
  }

  /** A number is classified into a category exactly when it lies in that
      category's band: the ordered rule chain agrees with the interval
      table in both directions. */
  lemma ClassifyIffInBand(x: real, c: Category)
    ensures Classify(Number(x)) == c <==> InBand(x, c)
  {
  }

  /** The boundaries are exclusive where the rules say `>` or `<`:
      500000 is not a spike while anything above it is, 1000 is not a drop
      while anything below it is, and 100000 stays in the default band. */
  lemma ThresholdBoundaries()
    ensures Classify(Number(500000.0)) == SustainedHigh
    ensures Classify(Number(500001.0)) == ExtremeSpike
    ensures Classify(Number(999.0)) == DrasticDrop
    ensures Classify(Number(1000.0)) == UnusualPattern
    ensures Classify(Number(100000.0)) == UnusualPattern
    ensures Classify(Number(100001.0)) == SustainedHigh
  {
  }
}
